=== FILE: README.md ===
# iMessage connector, modelled in Dafny

This project models the deterministic core of the chronicle-imessage connector.

The **extractor** builds the SQL query that reads messages from the macOS
`chat.db` store, and groups the participant rows of every chat. It can
optionally match contact names into those rows. It then pairs each message
with its chat's participants.

The **transformer** turns one such extraction into a "messaged" activity:
- the actor (who sent it);
- the consumers (who received it);
- the message entity with its image, audio and video attachments;
- the dedupe keys of every record.

Modules, one file each:

- `Wrappers`: `Option` and `Result`.
- `Seqs`: the Ruby collection idioms used. These are `select { }.first`, `Array#-` and `map { }.compact`.
- `Text`: the string operations used:
  - ASCII `downcase`;
  - `strip`;
  - ActiveSupport `blank?` and `presence`;
  - one-character `gsub` with a literal replacement;
  - `split("/").first`;
  - `File.basename`;
  - decimal printing of integers, with its parser.
- `Epoch`: the conversions between the store's clock and Unix time. The store counts nanoseconds from 2001-01-01.
- `Rows`: the store's rows as datatypes. Hashes become records with value equality.
- `Records`: the emitted identity, attachment, message and activity records, and how their dedupe keys are evaluated.
- `Transformer`: `set_actors`, the `build_*` methods, `timestamp` and `transform`.
- `Extractor`: query construction, `match_contacts`, `load_chats` grouping, `extract` and `results_count`.
- `Pipeline`: extractor output fed to the transformer.

Notes on the model:

- **Rounding.** Ruby's `Integer#/` floors, and so does Dafny's `/` with a positive divisor. Both `timestamp` and the query bounds therefore carry over exactly, negative dates included. For example, a date before 2001 maps to the earlier whole second.
- **LIMIT before ORDER BY.** The query appends ` LIMIT n` before ` ORDER BY date DESC`, as the code does (`lib/chronicle/imessage/imessage_extractor.rb:59-60`). The model keeps that order.
- **Removing the sender.** `Array#-` drops every row equal to the sender's row, comparing whole rows. A participant row therefore keeps a `handleRowId` standing for the columns that tell two handles with the same `id` apart. The lemma `Transformer.SenderRemovedByRowEquality` shows that a second handle row with the sender's `id` survives. The sender's identity is then also a consumer.
- **Missing participants.** A message whose chat has no participant rows gets nil participants. The transformer then calls a method on nil. The model turns this into `Failure(NoParticipantList)`. A received message with no matching participant raises `UntransformableRecordError`, which is modelled as `Failure(CouldNotBuildIdentity)`.

## Model

| member | source | states |
|---|---|---|
| Epoch.UnixToIos | lib/chronicle/imessage/imessage_transformer.rb:154-159 | subtracting the offset is undone by `ios_timestamp_to_unix`: the two helpers are inverse |
| Epoch.IosUnixRoundTrip | lib/chronicle/imessage/imessage_extractor.rb:92-98 | both compositions of the two epoch helpers are the identity |
| Epoch.IosToUnix | lib/chronicle/imessage/imessage_transformer.rb:154-156 | a store time in seconds maps to the Unix time 31 years and 8 leap days (978307200 seconds) later, the span from 1970-01-01 to 2001-01-01 |
| Epoch.Timestamp | lib/chronicle/imessage/imessage_transformer.rb:29-31 | the result is the Unix second whose whole store-nanosecond interval contains the date, i.e. floor division then the epoch offset |
| Epoch.StoreBound | lib/chronicle/imessage/imessage_extractor.rb:48-49 | the bound is a whole number of seconds in store nanoseconds, and the transformer's timestamp maps it back to the given Unix time |
| Epoch.EpochExamples | lib/chronicle/imessage/imessage_transformer.rb:29-31 | concrete values: a 2023 date, a date one nanosecond before the store's epoch (floored to the previous second), and the bounds for 1970-01-01 and 2001-01-01 |
| Epoch.UntilBoundExact | lib/chronicle/imessage/imessage_extractor.rb:49-56 | `date < bound` holds exactly when the message's timestamp is before the until time |
| Epoch.SinceBoundSound | lib/chronicle/imessage/imessage_extractor.rb:48-57 | `date > bound` implies a timestamp at or after the since time; a timestamp after it implies `date > bound` |
| Seqs.FindFirst | lib/chronicle/imessage/imessage_transformer.rb:47 | the index returned satisfies the predicate and no earlier one does; none exactly when no element does |
| Seqs.RemoveAll | lib/chronicle/imessage/imessage_transformer.rb:48 | no element equal to the removed one remains; every other element remains; the length drops by its number of occurrences |
| Seqs.RemoveAllAppend | lib/chronicle/imessage/imessage_transformer.rb:48 | removal distributes over concatenation, so the survivors keep their order |
| Seqs.Compact | lib/chronicle/imessage/imessage_transformer.rb:79 | exactly the present values are kept: every present value is in the result, every result value was present, one result per present value |
| Seqs.CompactAppend | lib/chronicle/imessage/imessage_transformer.rb:79 | compacting distributes over concatenation, so order is kept |
| Seqs.MapAppend | lib/chronicle/imessage/imessage_transformer.rb:79 | mapping distributes over concatenation |
| Seqs.CompactAllNone | lib/chronicle/imessage/imessage_transformer.rb:79 | nothing survives when every value is nil |
| Text.Downcase | lib/chronicle/imessage/imessage_transformer.rb:139 | same length; each ASCII capital becomes its lower-case letter and every other character is kept, so no capital is left |
| Text.DowncaseIdempotent | lib/chronicle/imessage/imessage_transformer.rb:139 | lower-casing twice is lower-casing once |
| Text.Strip | lib/chronicle/imessage/imessage_extractor.rb:86 | the result is a contiguous slice of the input with only NUL and ASCII white space outside it; it is empty exactly when the input is all such characters, and otherwise neither starts nor ends with one |
| Text.StripIdempotent | lib/chronicle/imessage/imessage_extractor.rb:86 | stripping twice is stripping once |
| Text.Presence | lib/chronicle/imessage/imessage_extractor.rb:86 | nil exactly for a blank string, otherwise the string itself |
| Text.ReplaceAll | lib/chronicle/imessage/imessage_transformer.rb:91 | a string without `~` is unchanged; when the replacement has no `~`, the result has none |
| Text.ReplaceAllAppend | lib/chronicle/imessage/imessage_transformer.rb:91 | replacing distributes over concatenation |
| Text.ReplaceAllSingle | lib/chronicle/imessage/imessage_transformer.rb:91 | one character becomes the replacement when it is the replaced character and stays otherwise |
| Text.SplitFirst | lib/chronicle/imessage/imessage_transformer.rb:87 | nil exactly for a string of slashes only; otherwise the prefix before the first `/`, which holds no `/` |
| Text.Basename | lib/chronicle/imessage/imessage_transformer.rb:101 | the last slash-free component after trailing slashes are dropped; `/` for a slashes-only path, empty for the empty path |
| Text.IntToString | lib/chronicle/imessage/imessage_extractor.rb:56-59 | interpolating an integer gives a non-empty string without spaces, all digits exactly when the integer is not negative, and never a leading zero (after the sign) except for 0 itself |
| Text.IntToStringRoundTrip | lib/chronicle/imessage/imessage_extractor.rb:56-59 | the printed number parses back to the integer |
| Text.IntToStringInjective | lib/chronicle/imessage/imessage_extractor.rb:56-59 | different integers print differently, so a bound or limit is recoverable from the query |
| Text.NatToStringRoundTrip | lib/chronicle/imessage/imessage_extractor.rb:59 | the decimal digits of a natural number read back as that number |
| Records.OneTripleKey | lib/chronicle/imessage/imessage_transformer.rb:121 | a record with one three-attribute key dedupes on exactly those three values |
| Transformer.BuildProvider | lib/chronicle/imessage/imessage_transformer.rb:138-140 | "imessage" for nil; otherwise the service lower-cased character by character, so of the same length with no upper-case letter, and unchanged when already lower case |
| Transformer.IdentityProvider | lib/chronicle/imessage/imessage_transformer.rb:143-151 | "phone" exactly for the service "SMS", "icloud" exactly for every other service, nil included |
| Transformer.ServiceMappings | lib/chronicle/imessage/imessage_transformer.rb:137-151 | SMS maps to sms/phone, iMessage to imessage/icloud, nil to imessage/icloud |
| Transformer.BuildIdentity | lib/chronicle/imessage/imessage_transformer.rb:112-123 | slug is the handle id, title the full name, no provider id; provider "phone" exactly for SMS; the one dedupe tuple is ("identity", handle id, identity provider) |
| Transformer.BuildIdentityMine | lib/chronicle/imessage/imessage_transformer.rb:125-135 | slug, title and provider id from the options and the account; provider "phone" exactly for SMS; two dedupe tuples, ("identity", slug, provider) and ("identity", provider, account guid) |
| Transformer.IdentityDedupeIdentity | lib/chronicle/imessage/imessage_transformer.rb:112-123 | two participant identities dedupe together exactly when the handle id and the identity provider agree; the name plays no part |
| Transformer.MineDedupe | lib/chronicle/imessage/imessage_transformer.rb:112-135 | the operator's first dedupe tuple equals a participant's tuple when `my_phone_slug` is that participant's id |
| Transformer.SenderIndex | lib/chronicle/imessage/imessage_transformer.rb:47 | the first participant whose id is the message's handle id; none exactly when no participant matches |
| Transformer.SetActors | lib/chronicle/imessage/imessage_transformer.rb:39-54 | from-me: actor "mine", consumers all participants in order, "mine" not among them; otherwise success iff a participant matches, with actor the first match and consumers the rows unequal to it followed by "mine" last and only there |
| Transformer.SenderRemovedByRowEquality | lib/chronicle/imessage/imessage_transformer.rb:47-52 | a second row with the sender's id but another handle row stays, so the sender's identity is also a consumer |
| Transformer.ExpandHome | lib/chronicle/imessage/imessage_transformer.rb:91 | no `~` survives when the home directory has none; a filename without `~` is unchanged |
| Transformer.ExpandHomeAppend | lib/chronicle/imessage/imessage_transformer.rb:91 | a path expands as its two halves do |
| Transformer.ExpandHomeHead | lib/chronicle/imessage/imessage_transformer.rb:91 | a leading `~` becomes the home directory and any other leading character is kept, the rest expanding likewise |
| Transformer.BuildAttachment | lib/chronicle/imessage/imessage_transformer.rb:84-110 | accepted exactly when the MIME type is present with major type image/audio/video and the filename is present and exists after home expansion; then provider, guid, major type, basename title, OCR only for images, the key and the base64 payload |
| Transformer.MajorTypeExamples | lib/chronicle/imessage/imessage_transformer.rb:87 | the major type of "text/plain" is "text" and that of "image/png" is "image" |
| Transformer.AttachmentExamples | lib/chronicle/imessage/imessage_transformer.rb:85-95 | "text/plain" is always rejected; "image/png" with an existing file is always accepted as an image |
| Transformer.AttachmentDedupeIdentity | lib/chronicle/imessage/imessage_transformer.rb:97-103 | two accepted attachments dedupe together exactly when guid and major type agree |
| Transformer.Contains | lib/chronicle/imessage/imessage_transformer.rb:79 | no more records than attachments; every accepted attachment is included and every included record comes from an accepted attachment |
| Transformer.ContainsAppend | lib/chronicle/imessage/imessage_transformer.rb:79 | the media of concatenated attachment lists are the media of each, in order |
| Transformer.ContainsSingle | lib/chronicle/imessage/imessage_transformer.rb:79 | one attachment contributes its record when accepted and nothing otherwise |
| Transformer.BuildMessage | lib/chronicle/imessage/imessage_transformer.rb:70-82 | body is the message text, consumers are those of `set_actors`, provider and guid; the media are those of `Transformer.Contains` on the attachment rows (`map { }.compact`), so at most one per row; the one dedupe tuple is ("message", provider, guid) |
| Transformer.BuildMessaged | lib/chronicle/imessage/imessage_transformer.rb:56-68 | verb "messaged", guid, provider, actor of `set_actors`, the involved entity is exactly `build_message`'s, end time the Unix second containing the date; the activity's dedupe tuple is (provider, "messaged", guid) and the involved message's is ("message", provider, guid) |
| Transformer.Transform | lib/chronicle/imessage/imessage_transformer.rb:19-82 | nil participants fail; otherwise success iff from me or a participant matches; on success verb "messaged", guid, provider, the activity and message keys, the timestamp interval, body, the media of the attachment rows (none when nil) and the actors of `set_actors` |
| Transformer.TransformFromMe | lib/chronicle/imessage/imessage_transformer.rb:42-45 | an operator-sent message succeeds with actor "mine", consumers all participants in order, "mine" not among them |
| Transformer.TransformReceived | lib/chronicle/imessage/imessage_transformer.rb:46-52 | a received message succeeds with the first matching participant as actor and the others plus "mine" as consumers |
| Transformer.TransformUnknownSender | lib/chronicle/imessage/imessage_transformer.rb:47-52 | a received message matching no participant fails as untransformable |
| Transformer.ActivityDedupeIdentity | lib/chronicle/imessage/imessage_transformer.rb:56-62 | two activities dedupe together exactly when provider and guid agree |
| Transformer.MessageDedupeIdentity | lib/chronicle/imessage/imessage_transformer.rb:70-76 | two message entities dedupe together exactly when provider and guid agree |
| Extractor.MessagesQuery | lib/chronicle/imessage/imessage_extractor.rb:47-60 | whatever the options, the query starts with the select-and-join text and ends with " ORDER BY date DESC" |
| Extractor.QueryWithoutLimit | lib/chronicle/imessage/imessage_extractor.rb:51-60 | without a limit the query is the select-and-join text, the WHERE clause (empty without bounds) and the ordering clause, nothing else |
| Extractor.QueryWithoutOptions | lib/chronicle/imessage/imessage_extractor.rb:51-60 | with no bound and no limit the query is the select-and-join text then the ordering clause |
| Extractor.QueryHasWhereIffBound | lib/chronicle/imessage/imessage_extractor.rb:55-58 | " WHERE " follows the select-and-join text exactly when a since or until bound is given |
| Extractor.QueryLimitBeforeOrder | lib/chronicle/imessage/imessage_extractor.rb:58-60 | with a limit, " LIMIT n" comes after any WHERE clause and right before the ordering clause |
| Extractor.WhereClauseStart | lib/chronicle/imessage/imessage_extractor.rb:58 | the WHERE clause is empty exactly without bounds and otherwise starts with " WHERE " |
| Extractor.TailStart | lib/chronicle/imessage/imessage_extractor.rb:59-60 | what follows the WHERE clause never starts with " WHERE " |
| Extractor.WhereClauseShape | lib/chronicle/imessage/imessage_extractor.rb:48-58 | for each combination of bounds, the clause: strict `date <` for until before strict `date >` for since, bounds in store nanoseconds, joined by " AND " |
| Extractor.LimitClause | lib/chronicle/imessage/imessage_extractor.rb:59 | the limit clause is empty exactly when no limit is given |
| Extractor.LimitReadsBack | lib/chronicle/imessage/imessage_extractor.rb:59-60 | the digits right before the ordering clause parse back to the limit given |
| Extractor.ContactFullName | lib/chronicle/imessage/imessage_extractor.rb:86 | with t the stripped "first last" (nil parts as empty): nil exactly when t is blank, otherwise t itself, which is not blank and has no surrounding white space |
| Extractor.ContactWithoutNames | lib/chronicle/imessage/imessage_extractor.rb:86 | a contact with neither first nor last name gives nil, not a lone space |
| Extractor.EnrichRow | lib/chronicle/imessage/imessage_extractor.rb:83-89 | only the name can change; a row no contact matches is unchanged; a matched row takes the first matching contact's name |
| Extractor.ContactIndex | lib/chronicle/imessage/imessage_extractor.rb:84 | the first contact whose number is the row's id; none exactly when no contact matches |
| Extractor.MatchContacts | lib/chronicle/imessage/imessage_extractor.rb:82-90 | same rows in the same order, only the name can change; unmatched rows unchanged; matched rows take the first matching contact's stripped name or nil |
| Extractor.OfChat | lib/chronicle/imessage/imessage_extractor.rb:79 | the reference grouping: exactly the rows of one chat |
| Extractor.OfChatSnoc | lib/chronicle/imessage/imessage_extractor.rb:79 | appending a row extends its own chat's rows only, so input order is kept within a chat |
| Extractor.ChatIdsSnoc | lib/chronicle/imessage/imessage_extractor.rb:79 | appending a row adds its chat id to the ids present |
| Extractor.GroupByChat | lib/chronicle/imessage/imessage_extractor.rb:79 | the group keys are exactly the chat ids present, and each group is its chat's rows in input order |
| Extractor.GroupStep | lib/chronicle/imessage/imessage_extractor.rb:79 | adding the last row to the grouping of the others gives the grouping of all rows |
| Extractor.GroupByChatIsFilter | lib/chronicle/imessage/imessage_extractor.rb:79 | keys are the ids present, each group is its chat's rows in order, no group is empty, every other chat has no rows |
| Extractor.LoadChats | lib/chronicle/imessage/imessage_extractor.rb:69-80 | keys are the chat ids present; groups are the chat's rows, contact-matched only when contacts are present |
| Extractor.Extract | lib/chronicle/imessage/imessage_extractor.rb:22-29 | one extraction per message in order, carrying the message and its chat's group, nil exactly when the chat has no group |
| Extractor.ResultsCount | lib/chronicle/imessage/imessage_extractor.rb:31-33 | the count equals the number of extractions whatever the chats |
| Pipeline.Extractions | lib/chronicle/imessage/imessage_extractor.rb:22-29 | participants are present exactly for chats with rows and, without contacts, are that chat's rows in order |
| Pipeline.ChatWithoutRowsFails | lib/chronicle/imessage/imessage_extractor.rb:25 | a message of a chat without participant rows cannot be transformed |
| Pipeline.PipelineHasNoMedia | lib/chronicle/imessage/imessage_extractor.rb:24-26 | the extractor supplies no attachment metadata, so every transformed message has no media |
| Pipeline.SentMessageReachesItsChat | lib/chronicle/imessage/imessage_extractor.rb:25 | an operator-sent message of a chat with rows succeeds with the identities of that chat's rows as consumers |
| Pipeline.ReceivedMessageNeedsSenderInChat | lib/chronicle/imessage/imessage_extractor.rb:25 | a received message of a chat with rows succeeds exactly when a row of that chat has the sender's handle id |
| Pipeline.SenderInChat | lib/chronicle/imessage/imessage_extractor.rb:79 | a chat's group holds a row with a given id exactly when the input does among that chat's rows |

## Left out

- SQL execution against `chat.db`. The query is modelled as a string, and the rows it would return are given as sequences. The participant query of `load_chats` is a constant that is never varied, so it is not modelled.
- `local_contacts.rb` is not part of this model. It covers contact-database discovery, raw SQLite queries and phone-number normalisation through an external library.
- Base64 encoding of attachment files and text recognition in images are foreign calls. They are function-typed fields of `Transformer.Env`, as are `Dir.home` and `File.exist?`.
- `Time.now`, the default `load_since` of about 58 days ago, and the `Time` objects themselves. Times are integer Unix seconds, and `to_i` on a bound is taken as already applied.
- Option merging, connector registration and the ETL base classes. These are framework plumbing.
- `@contacts` is never assigned in the extractor, so `match_contacts` never runs there. The model takes the contact list as an optional parameter.
- Text.Downcase: lower-cases ASCII letters only. Ruby's `downcase` applies full Unicode case mapping, which matters only for non-ASCII service names.
- Text.Basename: treats only '/' as a separator, as on macOS.
- Text.ReplaceAll: inserts the replacement literally. Ruby's `gsub` with a String replacement expands back-references (`\0`, `\&`, `\\`, `\1`, …) in it. The model matches Ruby only for a replacement without a backslash.
- Transformer.ExpandHome: inserts the home directory literally, for the same reason. A `Dir.home` holding a backslash sequence such as `\0` expands differently in Ruby, and the model does not cover that case.
- `id`, which returns the message guid, is inlined where it is used.

=== FILE: epoch.dfy ===
/** Time conversions between the message store and Unix time.

    The store counts from 2001-01-01T00:00:00Z, 978307200 seconds after the
    Unix epoch, and message dates are scaled to nanoseconds. Ruby's
    `Integer#/` floors; Dafny's `/` with a positive divisor floors as well,
    so no adjustment is needed for negative dates.
 */
module Epoch {

  /** Seconds from the Unix epoch to the store's epoch. */
  const IosEpochOffset: int := 978307200

  /** 2001-01-01 is 31 years after 1970-01-01, eight of them leap years
      (1972, 1976, …, 2000). */
  const DaysFrom1970To2001: int := 31 * 365 + 8

  const SecondsPerDay: int := 24 * 60 * 60

  /** Store dates are nanoseconds. */
  const NanosPerSecond: int := 1_000_000_000

  /** `ios_timestamp_to_unix`: store seconds to Unix seconds. */
  function IosToUnix(ts: int): (r: int)
    ensures r > ts
    ensures r - ts == DaysFrom1970To2001 * SecondsPerDay
  {
    ts + IosEpochOffset
  }

  /** `unix_to_ios_timestamp`: Unix seconds to store seconds, the inverse of `IosToUnix`. */
  function UnixToIos(ts: int): (r: int)
    ensures IosToUnix(r) == ts
  {
    ts - IosEpochOffset
  }

  lemma IosUnixRoundTrip(ts: int)
    ensures UnixToIos(IosToUnix(ts)) == ts
    ensures IosToUnix(UnixToIos(ts)) == ts
  {
  }

  /** The transformer's `timestamp`: a store date in nanoseconds to Unix
      seconds, the whole seconds being taken by flooring. */
  function Timestamp(date: int): (r: int)
    ensures UnixToIos(r) * NanosPerSecond <= date < (UnixToIos(r) + 1) * NanosPerSecond
  {
    IosToUnix(date / NanosPerSecond)
  }

  /** The extractor's bound for `load_since` / `load_until`: Unix seconds to a
      store date in nanoseconds. */
  function StoreBound(t: int): (b: int)
    ensures b % NanosPerSecond == 0
    ensures Timestamp(b) == t
  {
    UnixToIos(t) * NanosPerSecond
  }

  /** A store date is before the until-bound exactly when its timestamp is
      before `until`: the `date <` condition filters by whole seconds. */
  lemma UntilBoundExact(date: int, until: int)
    ensures date < StoreBound(until) <==> Timestamp(date) < until
  {
    var r := Timestamp(date);
    if date < StoreBound(until) {
      assert UnixToIos(r) * NanosPerSecond < UnixToIos(until) * NanosPerSecond;
      MulStrict(UnixToIos(r), UnixToIos(until));
    }
    if r < until {
      MulMonotone(UnixToIos(r) + 1, UnixToIos(until));
    }
  }

  /** A store date after the since-bound has a timestamp of at least `since`,
      and a timestamp after `since` implies the date is after the bound. The
      date equal to the bound itself has timestamp `since` but is excluded. */
  lemma SinceBoundSound(date: int, since: int)
    ensures date > StoreBound(since) ==> Timestamp(date) >= since
    ensures Timestamp(date) > since ==> date > StoreBound(since)
  {
    var r := Timestamp(date);
    if date > StoreBound(since) {
      assert UnixToIos(since) * NanosPerSecond < (UnixToIos(r) + 1) * NanosPerSecond;
      MulStrict(UnixToIos(since), UnixToIos(r) + 1);
    }
    if r > since {
      MulMonotone(UnixToIos(since) + 1, UnixToIos(r));
    }
  }

  /** Concrete conversions: a date in 2023, a date just before the store's
      epoch (floored to the previous second), and the bound for 2001-01-01. */
  lemma EpochExamples()
    ensures Timestamp(700000000 * NanosPerSecond) == 700000000 + 978307200
    ensures Timestamp(-1) == 978307199
    ensures StoreBound(978307200) == 0
    ensures StoreBound(0) == -978307200 * NanosPerSecond
  {
  }

  lemma MulStrict(a: int, b: int)
    requires a * NanosPerSecond < b * NanosPerSecond
    ensures a < b
  {
  }

  lemma MulMonotone(a: int, b: int)
    requires a <= b
    ensures a * NanosPerSecond <= b * NanosPerSecond
  {
  }
}

=== FILE: extractor.dfy ===
/** The query and assembly layer of the extractor, without the database.

    The message query is built as a string from the optional since / until /
    limit values; the rows the database would return are given as sequences.
    Participant rows are optionally enriched with contact names and grouped
    by chat, and every message is paired with its chat's participants.
 */
module Extractor {
  import opened Wrappers
  import opened Seqs
  import opened Text
  import opened Epoch
  import opened Rows

  // ---------------------------------------------------------------------------
  // the message query

  /** The fixed select-and-join part of the message query, whitespace included. */
  const MessagesBaseQuery: string :=
    "SELECT * from message as m\n          LEFT OUTER JOIN handle as h ON m.handle_id=h.ROWID\n          INNER JOIN chat_message_join as cm ON m.ROWID = cm.message_id"

  const WhereKeyword: string := " WHERE "
  const AndSeparator: string := " AND "
  const LimitKeyword: string := " LIMIT "
  const OrderSuffix: string := " ORDER BY date DESC"

  /** `parts.join(sep)` */
  function Join(parts: seq<string>, sep: string): (r: string)
    decreases |parts|
  {
    if |parts| == 0 then ""
    else if |parts| == 1 then parts[0]
    else parts[0] + sep + Join(parts[1..], sep)
  }

  lemma JoinTwo(a: string, b: string, sep: string)
    ensures Join([a, b], sep) == a + sep + b
  {
    assert [a, b][1..] == [b];
  }

  /** `date < bound`: strictly before the until-bound, in store nanoseconds. */
  function UntilCondition(until: int): (c: string) {
    "date < " + IntToString(StoreBound(until))
  }

  /** `date > bound`: strictly after the since-bound, in store nanoseconds. */
  function SinceCondition(since: int): (c: string) {
    "date > " + IntToString(StoreBound(since))
  }

  /** The filter conditions, the until-condition first. */
  function Conditions(since: Option<int>, until: Option<int>): (cs: seq<string>)
    ensures |cs| == (if since.Some? then 1 else 0) + (if until.Some? then 1 else 0)
  {
    match (until, since)
    case (None, None) => []
    case (Some(u), None) => [UntilCondition(u)]
    case (None, Some(t)) => [SinceCondition(t)]
    case (Some(u), Some(t)) => [UntilCondition(u), SinceCondition(t)]
  }

  /** " WHERE " and the conditions joined by " AND ", or nothing without conditions. */
  function WhereClause(since: Option<int>, until: Option<int>): (w: string) {
    var cs := Conditions(since, until);
    if |cs| == 0 then "" else WhereKeyword + Join(cs, AndSeparator)
  }

  /** " LIMIT n" whenever a limit is given (0 included, Ruby's 0 being true). */
  function LimitClause(limit: Option<int>): (l: string)
    ensures l == [] <==> limit.None?
  {
    match limit
    case Some(n) => LimitKeyword + IntToString(n)
    case None => ""
  }

  /** The message query of `load_messages`. The limit clause is appended before
      the ordering clause, as the source does. */
  function MessagesQuery(since: Option<int>, until: Option<int>, limit: Option<int>): (q: string)
    ensures StartsWith(q, MessagesBaseQuery) && EndsWith(q, OrderSuffix)
  {
    Assemble(MessagesBaseQuery, WhereClause(since, until), LimitClause(limit), OrderSuffix)
  }

  /** `p` is a prefix of `q`. */
  predicate StartsWith(q: string, p: string) {
    |p| <= |q| && q[..|p|] == p
  }

  /** `p` is a suffix of `q`. */
  predicate EndsWith(q: string, p: string) {
    |p| <= |q| && q[|q| - |p|..] == p
  }

  /** The query's four pieces in order; the first and last frame the result. */
  function Assemble(head: string, where: string, limit: string, order: string): (q: string)
    ensures StartsWith(q, head) && EndsWith(q, order)
  {
    Framed(head, where, limit, order);
    head + where + (limit + order)
  }

  /** Without bounds and limit the query is the select-and-join part followed
      by the ordering clause, nothing else. */
  lemma QueryWithoutOptions()
    ensures MessagesQuery(None, None, None) == MessagesBaseQuery + OrderSuffix
  {
    assert WhereClause(None, None) == [];
    assert LimitClause(None) + OrderSuffix == OrderSuffix;
    assert MessagesBaseQuery + [] == MessagesBaseQuery;
  }

  /** Without a limit the query is the select-and-join part, the WHERE
      clause (empty without bounds) and the ordering clause. */
  lemma QueryWithoutLimit(since: Option<int>, until: Option<int>)
    ensures MessagesQuery(since, until, None) == MessagesBaseQuery + WhereClause(since, until) + OrderSuffix
  {
    assert LimitClause(None) + OrderSuffix == OrderSuffix;
  }

  /** The query has a WHERE clause, right after the select-and-join part,
      exactly when a since or an until bound is given. */
  lemma QueryHasWhereIffBound(since: Option<int>, until: Option<int>, limit: Option<int>)
    ensures var rest := MessagesQuery(since, until, limit)[|MessagesBaseQuery|..];
      |rest| >= |WhereKeyword| && (rest[..|WhereKeyword|] == WhereKeyword <==> since.Some? || until.Some?)
  {
    var where := WhereClause(since, until);
    var tail := LimitClause(limit) + OrderSuffix;
    Concat3(MessagesBaseQuery, where, tail);
    WhereClauseStart(since, until);
    TailStart(limit);
    if where != [] {
      PrefixOfConcat(where, tail, |WhereKeyword|);
    }
  }

  /** With a limit, " LIMIT n" comes right before " ORDER BY date DESC" and
      after the WHERE clause, if any. */
  lemma QueryLimitBeforeOrder(since: Option<int>, until: Option<int>, n: int)
    ensures MessagesQuery(since, until, Some(n)) ==
      MessagesBaseQuery + WhereClause(since, until) + LimitKeyword + IntToString(n) + OrderSuffix
  {
    var head := MessagesBaseQuery + WhereClause(since, until);
    AppendAssoc(head, LimitKeyword + IntToString(n), OrderSuffix);
    AppendAssoc(head, LimitKeyword, IntToString(n));
  }

  lemma Concat3(a: string, b: string, c: string)
    ensures var q := a + b + c;
      && q[..|a|] == a
      && q[|a|..] == b + c
      && q[|a| + |b|..] == c
  {
  }

  lemma PrefixOfConcat(a: string, b: string, n: nat)
    requires n <= |a|
    ensures (a + b)[..n] == a[..n]
  {
  }

  lemma Framed(a: string, b: string, c: string, d: string)
    ensures var q := a + b + (c + d);
      |q| >= |a| + |d| && q[..|a|] == a && q[|q| - |d|..] == d
  {
  }

  /** A non-empty WHERE clause starts with " WHERE ". */
  lemma WhereClauseStart(since: Option<int>, until: Option<int>)
    ensures WhereClause(since, until) == [] <==> since.None? && until.None?
    ensures WhereClause(since, until) != [] ==>
      |WhereClause(since, until)| >= |WhereKeyword| && WhereClause(since, until)[..|WhereKeyword|] == WhereKeyword
  {
    var cs := Conditions(since, until);
    if |cs| != 0 {
      PrefixOfConcat(WhereKeyword, Join(cs, AndSeparator), |WhereKeyword|);
    }
  }

  /** What follows the WHERE clause starts " LIMIT " or " ORDER ", never " WHERE ". */
  lemma TailStart(limit: Option<int>)
    ensures var tail := LimitClause(limit) + OrderSuffix;
      |tail| >= |WhereKeyword| && tail[..|WhereKeyword|] != WhereKeyword
  {
    var tail := LimitClause(limit) + OrderSuffix;
    if limit.Some? {
      assert tail[1] == LimitKeyword[1] == 'L';
    } else {
      assert tail[1] == OrderSuffix[1] == 'O';
    }
    assert WhereKeyword[1] == 'W';
  }

  /** What the WHERE clause says for each combination of bounds: the bounds in
      store nanoseconds, `date <` for until, `date >` for since, until first. */
  lemma WhereClauseShape(since: Option<int>, until: Option<int>)
    ensures since.None? && until.None? ==> WhereClause(since, until) == ""
    ensures since.None? && until.Some? ==>
      WhereClause(since, until) == WhereKeyword + UntilCondition(until.value)
    ensures since.Some? && until.None? ==>
      WhereClause(since, until) == WhereKeyword + SinceCondition(since.value)
    ensures since.Some? && until.Some? ==>
      WhereClause(since, until) == WhereKeyword + UntilCondition(until.value) + AndSeparator + SinceCondition(since.value)
  {
    if since.Some? && until.Some? {
      var u := UntilCondition(until.value);
      var t := SinceCondition(since.value);
      JoinTwo(u, t, AndSeparator);
      AppendAssoc(WhereKeyword, u + AndSeparator, t);
      AppendAssoc(WhereKeyword, u, AndSeparator);
    }
  }

  /** The number after " LIMIT " reads back as the limit that was given. */
  lemma LimitReadsBack(since: Option<int>, until: Option<int>, n: int)
    ensures
      var q := MessagesQuery(since, until, Some(n));
      var digits := IntToString(n);
      |digits| + |OrderSuffix| <= |q|
      && ParseInt(q[|q| - |OrderSuffix| - |digits|..|q| - |OrderSuffix|]) == Some(n)
  {
    var digits := IntToString(n);
    var head := MessagesBaseQuery + WhereClause(since, until) + LimitKeyword;
    QueryLimitBeforeOrder(since, until, n);
    DigitsBeforeSuffix(head, digits, OrderSuffix);
    IntToStringRoundTrip(n);
  }

  lemma DigitsBeforeSuffix(a: string, b: string, c: string)
    ensures var q := a + b + c;
      |b| + |c| <= |q| && q[|q| - |c| - |b|..|q| - |c|] == b
  {
  }

  // ---------------------------------------------------------------------------
  // contacts

  /** `"#{first_name} #{last_name}".strip.presence` */
  function ContactFullName(c: Contact): (name: Option<string>)
    ensures var t := Strip(OrEmpty(c.firstName) + " " + OrEmpty(c.lastName));
      (name.None? <==> IsBlank(t)) && (name.Some? ==> name.value == t)
    ensures name.Some? ==> name.value != [] && !IsStripChar(name.value[0]) && !IsStripChar(name.value[|name.value| - 1])
    ensures name.Some? ==> !IsBlank(name.value)
  {
    Presence(Strip(OrEmpty(c.firstName) + " " + OrEmpty(c.lastName)))
  }

  /** A contact with neither name has no name, not a lone space. */
  lemma ContactWithoutNames(c: Contact)
    requires c.firstName.None? && c.lastName.None?
    ensures ContactFullName(c).None?
  {
    assert OrEmpty(c.firstName) + " " + OrEmpty(c.lastName) == " ";
    assert IsStripChar(" "[0]);
  }

  /** `j` is the first contact whose number is `id`. */
  predicate IsFirstContact(contacts: seq<Contact>, id: string, j: int) {
    && 0 <= j < |contacts|
    && contacts[j].number == Some(id)
    && forall k :: 0 <= k < j ==> contacts[k].number != Some(id)
  }

  /** `contacts.select { |c| c['number'] == id }.first`, as an index. */
  function ContactIndex(contacts: seq<Contact>, id: string): (r: Option<nat>)
    ensures r.Some? ==> IsFirstContact(contacts, id, r.value)
    ensures r.None? <==> forall j :: 0 <= j < |contacts| ==> contacts[j].number != Some(id)
  {
    FindFirst(contacts, (c: Contact) => c.number == Some(id))
  }

  /** One row of `match_contacts`: with a matching contact, `full_name` is that
      contact's name (nil when blank); otherwise the row is unchanged. */
  function EnrichRow(row: ParticipantRow, contacts: seq<Contact>): (r: ParticipantRow)
    ensures r.(fullName := row.fullName) == row
    ensures (forall j :: 0 <= j < |contacts| ==> contacts[j].number != Some(row.id)) ==> r == row
    ensures forall j :: IsFirstContact(contacts, row.id, j) ==> r.fullName == ContactFullName(contacts[j])
  {
    match ContactIndex(contacts, row.id)
    case None => row
    case Some(j) => row.(fullName := ContactFullName(contacts[j]))
  }

  /** `match_contacts`: same rows, same order; only `full_name` can change, and
      it changes exactly for rows some contact's number matches, taking the
      first such contact. */
  function MatchContacts(rows: seq<ParticipantRow>, contacts: seq<Contact>): (r: seq<ParticipantRow>)
    ensures |r| == |rows|
    ensures forall i :: 0 <= i < |rows| ==> r[i].(fullName := rows[i].fullName) == rows[i]
    ensures forall i :: 0 <= i < |rows| && (forall j :: 0 <= j < |contacts| ==> contacts[j].number != Some(rows[i].id)) ==>
      r[i] == rows[i]
    ensures forall i, j :: 0 <= i < |rows| && IsFirstContact(contacts, rows[i].id, j) ==>
      r[i].fullName == ContactFullName(contacts[j])
  {
    var r := seq(|rows|, i requires 0 <= i < |rows| => EnrichRow(rows[i], contacts));
    assert forall i, j :: 0 <= i < |rows| && IsFirstContact(contacts, rows[i].id, j) ==>
      ContactIndex(contacts, rows[i].id) == Some(j);
    r
  }

  // ---------------------------------------------------------------------------
  // grouping

  /** The rows of chat `k`, in input order: the reference for the grouping. */
  function OfChat(rows: seq<ParticipantRow>, k: int): (r: seq<ParticipantRow>)
    ensures forall j :: 0 <= j < |r| ==> r[j].chatId == k && r[j] in rows
    ensures forall i :: 0 <= i < |rows| && rows[i].chatId == k ==> rows[i] in r
    decreases |rows|
  {
    if |rows| == 0 then []
    else
      assert forall i :: 1 <= i < |rows| ==> rows[i] == rows[1..][i - 1];
      (if rows[0].chatId == k then [rows[0]] else []) + OfChat(rows[1..], k)
  }

  lemma {:induction false} OfChatSnoc(rows: seq<ParticipantRow>, x: ParticipantRow, k: int)
    ensures OfChat(rows + [x], k) == OfChat(rows, k) + (if x.chatId == k then [x] else [])
    decreases |rows|
  {
    if |rows| == 0 {
      assert rows + [x] == [x];
      assert [x][1..] == [];
    } else {
      var head := if rows[0].chatId == k then [rows[0]] else [];
      var tail := if x.chatId == k then [x] else [];
      assert (rows + [x])[0] == rows[0];
      assert (rows + [x])[1..] == rows[1..] + [x];
      OfChatSnoc(rows[1..], x, k);
      assert OfChat(rows + [x], k) == head + (OfChat(rows[1..], k) + tail);
      AppendAssoc(head, OfChat(rows[1..], k), tail);
    }
  }

  /** The chat ids present among the rows. */
  function ChatIds(rows: seq<ParticipantRow>): (ids: set<int>) {
    set i | 0 <= i < |rows| :: rows[i].chatId
  }

  /** `results.group_by { |x| x['chat_id'] }` */
  function GroupByChat(rows: seq<ParticipantRow>): (chats: map<int, seq<ParticipantRow>>)
    ensures chats.Keys == ChatIds(rows)
    ensures forall k :: k in chats ==> chats[k] == OfChat(rows, k)
    decreases |rows|
  {
    if |rows| == 0 then map[]
    else
      var init := rows[..|rows| - 1];
      var last := rows[|rows| - 1];
      var before := GroupByChat(init);
      SplitLast(rows);
      GroupStep(rows, init, last, before);
      AddToGroup(before, last)
  }

  /** A non-empty sequence is its front followed by its last element. */
  lemma SplitLast<T>(s: seq<T>)
    requires |s| > 0
    ensures s == s[..|s| - 1] + [s[|s| - 1]]
  {
  }

  /** The row appended to its chat's group, which is created when missing. */
  function AddToGroup(groups: map<int, seq<ParticipantRow>>, row: ParticipantRow): (r: map<int, seq<ParticipantRow>>) {
    groups[row.chatId := (if row.chatId in groups then groups[row.chatId] else []) + [row]]
  }

  /** Grouping all rows but the last, then adding the last to its group, gives
      the grouping of all rows. */
  lemma GroupStep(rows: seq<ParticipantRow>, init: seq<ParticipantRow>, last: ParticipantRow,
                  before: map<int, seq<ParticipantRow>>)
    requires rows == init + [last]
    requires before.Keys == ChatIds(init)
    requires forall k :: k in before ==> before[k] == OfChat(init, k)
    ensures AddToGroup(before, last).Keys == ChatIds(rows)
    ensures forall k :: k in AddToGroup(before, last) ==> AddToGroup(before, last)[k] == OfChat(rows, k)
  {
    ChatIdsSnoc(init, last);
    forall k | k in AddToGroup(before, last)
      ensures AddToGroup(before, last)[k] == OfChat(init + [last], k)
    {
      OfChatSnoc(init, last, k);
      if k !in before {
        OfChatAbsent(init, k);
      }
    }
  }

  lemma ChatIdsSnoc(init: seq<ParticipantRow>, last: ParticipantRow)
    ensures ChatIds(init + [last]) == ChatIds(init) + {last.chatId}
  {
    var rows := init + [last];
    forall c | c in ChatIds(rows)
      ensures c in ChatIds(init) + {last.chatId}
    {
      var i :| 0 <= i < |rows| && rows[i].chatId == c;
      if i < |init| {
        assert init[i] == rows[i];
      }
    }
    assert rows[|init|] == last;
    forall c | c in ChatIds(init)
      ensures c in ChatIds(rows)
    {
      var i :| 0 <= i < |init| && init[i].chatId == c;
      assert rows[i] == init[i];
    }
  }

  /** A chat with no rows has no filtered rows. */
  lemma OfChatAbsent(rows: seq<ParticipantRow>, k: int)
    requires k !in ChatIds(rows)
    ensures OfChat(rows, k) == []
  {
  }

  /** The grouping against its reference: the keys are exactly the chat ids
      present, and each group is the chat's rows in input order. So every row is
      in exactly one group, its own chat's, and no group is empty. */
  lemma GroupByChatIsFilter(rows: seq<ParticipantRow>)
    ensures GroupByChat(rows).Keys == ChatIds(rows)
    ensures forall k :: k in GroupByChat(rows) ==> GroupByChat(rows)[k] == OfChat(rows, k)
    ensures forall k :: k in GroupByChat(rows) ==> GroupByChat(rows)[k] != []
    ensures forall k :: k !in GroupByChat(rows) ==> OfChat(rows, k) == []
  {
    forall k | k in GroupByChat(rows)
      ensures OfChat(rows, k) != []
    {
      var i :| 0 <= i < |rows| && rows[i].chatId == k;
      assert rows[i] in OfChat(rows, k);
    }
    forall k | k !in GroupByChat(rows)
      ensures OfChat(rows, k) == []
    {
      OfChatAbsent(rows, k);
    }
  }

  /** `load_chats` on the rows the query returned: contact names are matched
      in only when a contact list is present, then the rows are grouped. */
  function LoadChats(rows: seq<ParticipantRow>, contacts: Option<seq<Contact>>): (chats: map<int, seq<ParticipantRow>>)
    ensures chats.Keys == ChatIds(rows)
    ensures contacts.None? ==> forall k :: k in chats ==> chats[k] == OfChat(rows, k)
    ensures contacts.Some? ==> forall k :: k in chats ==> chats[k] == OfChat(MatchContacts(rows, contacts.value), k)
  {
    var enriched := if contacts.Some? then MatchContacts(rows, contacts.value) else rows;
    GroupByChatIsFilter(enriched);
    assert ChatIds(enriched) == ChatIds(rows) by {
      assert |enriched| == |rows|;
      assert forall i :: 0 <= i < |rows| ==> enriched[i].chatId == rows[i].chatId;
    }
    GroupByChat(enriched)
  }

  // ---------------------------------------------------------------------------
  // extraction

  /** `extract`: one extraction per message, in stored order, with the
      message's chat's participants (nil for a chat with no rows). */
  function Extract(messages: seq<MessageRow>, chats: map<int, seq<ParticipantRow>>): (r: seq<Extraction>)
    ensures |r| == |messages|
    ensures forall i :: 0 <= i < |messages| ==> r[i].data == messages[i] && r[i].attachments.None?
    ensures forall i :: 0 <= i < |messages| ==>
      (r[i].participants.Some? <==> messages[i].chatId in chats)
    ensures forall i :: 0 <= i < |messages| && messages[i].chatId in chats ==>
      r[i].participants.value == chats[messages[i].chatId]
  {
    seq(|messages|, i requires 0 <= i < |messages| =>
      Extraction(messages[i],
                 if messages[i].chatId in chats then Some(chats[messages[i].chatId]) else None,
                 None))
  }

  /** `results_count`: the number of messages, which is the number of extractions. */
  function ResultsCount(messages: seq<MessageRow>): (n: nat)
    ensures forall chats :: |Extract(messages, chats)| == n
  {
    |messages|
  }
}

=== FILE: pipeline.dfy ===
/** The extractor's output fed to the transformer, one extraction at a time.

    These lemmas connect the two halves: what `extract` pairs with a message
    decides whether and how the transformer can build its activity.
 */
module Pipeline {
  import opened Wrappers
  import opened Seqs
  import opened Rows
  import opened Records
  import opened Extractor
  import opened Transformer

  /** The extractions for the given message and participant rows, contacts
      matched in when a contact list is present. */
  function Extractions(messages: seq<MessageRow>, rows: seq<ParticipantRow>, contacts: Option<seq<Contact>>): (r: seq<Extraction>)
    ensures |r| == |messages|
    ensures forall i :: 0 <= i < |messages| ==> r[i].data == messages[i]
    ensures forall i :: 0 <= i < |messages| ==>
      (r[i].participants.Some? <==> messages[i].chatId in ChatIds(rows))
    ensures contacts.None? ==> forall i :: 0 <= i < |messages| && messages[i].chatId in ChatIds(rows) ==>
      r[i].participants == Some(OfChat(rows, messages[i].chatId))
  {
    Extract(messages, LoadChats(rows, contacts))
  }

  /** A message whose chat has no participant rows cannot be transformed: the
      extractor pairs it with nil, and the transformer calls a method on it. */
  lemma ChatWithoutRowsFails(messages: seq<MessageRow>, rows: seq<ParticipantRow>, contacts: Option<seq<Contact>>,
                             i: nat, opts: Options, env: Env)
    requires i < |messages| && messages[i].chatId !in ChatIds(rows)
    ensures Transform(Extractions(messages, rows, contacts)[i], opts, env) == Failure(NoParticipantList)
  {
  }

  /** The extractor never supplies attachment metadata, so every activity of
      the pipeline contains no media. */
  lemma PipelineHasNoMedia(messages: seq<MessageRow>, rows: seq<ParticipantRow>, contacts: Option<seq<Contact>>,
                           i: nat, opts: Options, env: Env)
    requires i < |messages|
    ensures var r := Transform(Extractions(messages, rows, contacts)[i], opts, env);
      r.Success? ==> r.value.involved.contains == []
  {
    var ex := Extractions(messages, rows, contacts)[i];
    assert ex.attachments.None?;
    assert Contains([], env) == [];
  }

  /** A message the operator sent, in a chat with rows and without contact
      matching: it succeeds, and its consumers are the identities of its own
      chat's rows, in the order the participant query returned them. */
  lemma SentMessageReachesItsChat(messages: seq<MessageRow>, rows: seq<ParticipantRow>,
                                  i: nat, opts: Options, env: Env)
    requires i < |messages| && messages[i].chatId in ChatIds(rows) && messages[i].isFromMe == 1
    ensures var r := Transform(Extractions(messages, rows, None)[i], opts, env);
      && r.Success?
      && r.value.actor == BuildIdentityMine(messages[i], opts)
      && r.value.involved.consumers == Identities(OfChat(rows, messages[i].chatId), messages[i].service)
  {
    TransformFromMe(Extractions(messages, rows, None)[i], opts, env);
  }

  /** A received message in a chat with rows succeeds exactly when some row
      of that chat has the sender's handle id. */
  lemma ReceivedMessageNeedsSenderInChat(messages: seq<MessageRow>, rows: seq<ParticipantRow>,
                                         i: nat, opts: Options, env: Env)
    requires i < |messages| && messages[i].chatId in ChatIds(rows) && messages[i].isFromMe != 1
    ensures Transform(Extractions(messages, rows, None)[i], opts, env).Success? <==>
      exists j :: 0 <= j < |rows| && rows[j].chatId == messages[i].chatId && Some(rows[j].id) == messages[i].handleId
  {
    var ex := Extractions(messages, rows, None)[i];
    var ps := OfChat(rows, messages[i].chatId);
    assert ex.participants == Some(ps);
    SenderInChat(rows, messages[i].chatId, messages[i].handleId);
  }

  /** Some row of chat `c` has handle id `id` exactly when some row of the
      chat's group does. */
  lemma SenderInChat(rows: seq<ParticipantRow>, c: int, id: Option<string>)
    ensures (exists k :: 0 <= k < |OfChat(rows, c)| && Some(OfChat(rows, c)[k].id) == id) ==>
      exists j :: 0 <= j < |rows| && rows[j].chatId == c && Some(rows[j].id) == id
    ensures (exists j :: 0 <= j < |rows| && rows[j].chatId == c && Some(rows[j].id) == id) ==>
      exists k :: 0 <= k < |OfChat(rows, c)| && Some(OfChat(rows, c)[k].id) == id
  {
    var ps := OfChat(rows, c);
    if k :| 0 <= k < |ps| && Some(ps[k].id) == id {
      assert ps[k] in rows;
      var j :| 0 <= j < |rows| && rows[j] == ps[k];
      assert rows[j].chatId == c && Some(rows[j].id) == id;
    }
    if j :| 0 <= j < |rows| && rows[j].chatId == c && Some(rows[j].id) == id {
      assert rows[j] in ps;
      var k :| 0 <= k < |ps| && ps[k] == rows[j];
      assert Some(ps[k].id) == id;
    }
  }
}

=== FILE: records.dfy ===
/** The normalized records the transformer emits (the ETL framework's Activity
    and Entity objects, reduced to the attributes the connector sets), and the
    evaluation of their dedupe keys.

    A dedupe key is a list of attribute names; downstream, two records with the
    same values for every attribute of one of their keys are the same record.
 */
module Records {
  import opened Wrappers

  /** Attribute names that appear in dedupe keys. */
  datatype Field = Provider | Verb | ProviderId | Represents | Slug

  type DedupeKey = seq<Field>

  /** An identity entity: a participant, or the operator ("mine"). */
  datatype Identity = Identity(
    represents: string,
    slug: Option<string>,
    title: Option<string>,
    provider: string,
    providerId: Option<string>,
    dedupeOn: seq<DedupeKey>)

  /** A binary attachment: the base64 payload of a file. */
  datatype BinaryAttachment = BinaryAttachment(data: string)

  /** A media entity contained in a message. */
  datatype AttachmentEntity = AttachmentEntity(
    provider: string,
    providerId: string,
    represents: string,
    title: string,
    ocrText: Option<string>,
    dedupeOn: seq<DedupeKey>,
    attachments: seq<BinaryAttachment>)

  /** The message entity: the body, its recipients and its media. */
  datatype MessageEntity = MessageEntity(
    body: Option<string>,
    providerId: string,
    represents: string,
    provider: string,
    dedupeOn: seq<DedupeKey>,
    consumers: seq<Identity>,
    contains: seq<AttachmentEntity>)

  /** The activity "actor messaged involved"; `endAt` is in Unix seconds. */
  datatype Activity = Activity(
    endAt: int,
    verb: string,
    providerId: string,
    provider: string,
    dedupeOn: seq<DedupeKey>,
    involved: MessageEntity,
    actor: Identity)

  // ---------------------------------------------------------------------------
  // attribute lookup; an attribute a record does not have reads as nil

  /** The values of the attributes that dedupe keys can name. */
  datatype Attributes = Attributes(
    provider: Option<string>,
    verb: Option<string>,
    providerId: Option<string>,
    represents: Option<string>,
    slug: Option<string>)

  function Get(attrs: Attributes, f: Field): (v: Option<string>) {
    match f
    case Provider => attrs.provider
    case Verb => attrs.verb
    case ProviderId => attrs.providerId
    case Represents => attrs.represents
    case Slug => attrs.slug
  }

  function IdentityAttrs(e: Identity): (attrs: Attributes) {
    Attributes(Some(e.provider), None, e.providerId, Some(e.represents), e.slug)
  }

  function AttachmentAttrs(e: AttachmentEntity): (attrs: Attributes) {
    Attributes(Some(e.provider), None, Some(e.providerId), Some(e.represents), None)
  }

  function MessageAttrs(e: MessageEntity): (attrs: Attributes) {
    Attributes(Some(e.provider), None, Some(e.providerId), Some(e.represents), None)
  }

  function ActivityAttrs(a: Activity): (attrs: Attributes) {
    Attributes(Some(a.provider), Some(a.verb), Some(a.providerId), None, None)
  }

  /** The values of one key's attributes, in key order. */
  function KeyValues(key: DedupeKey, attrs: Attributes): (vs: seq<Option<string>>)
    ensures |vs| == |key|
    ensures forall i :: 0 <= i < |key| ==> vs[i] == Get(attrs, key[i])
  {
    seq(|key|, i requires 0 <= i < |key| => Get(attrs, key[i]))
  }

  /** The value tuple of every dedupe key of a record, in key order. */
  function DedupeTuples(keys: seq<DedupeKey>, attrs: Attributes): (ts: seq<seq<Option<string>>>)
    ensures |ts| == |keys|
    ensures forall i :: 0 <= i < |keys| ==> ts[i] == KeyValues(keys[i], attrs)
  {
    seq(|keys|, i requires 0 <= i < |keys| => KeyValues(keys[i], attrs))
  }

  /** The tuple of a record with one three-attribute key. */
  lemma OneTripleKey(f0: Field, f1: Field, f2: Field, attrs: Attributes)
    ensures DedupeTuples([[f0, f1, f2]], attrs) == [[Get(attrs, f0), Get(attrs, f1), Get(attrs, f2)]]
  {
    assert KeyValues([f0, f1, f2], attrs) == [Get(attrs, f0), Get(attrs, f1), Get(attrs, f2)];
  }

  /** Two records with the same one three-attribute key dedupe together exactly
      when they agree on the three attributes. */
  lemma OneTripleKeyEq(f0: Field, f1: Field, f2: Field, x: Attributes, y: Attributes)
    ensures DedupeTuples([[f0, f1, f2]], x) == DedupeTuples([[f0, f1, f2]], y) <==>
      Get(x, f0) == Get(y, f0) && Get(x, f1) == Get(y, f1) && Get(x, f2) == Get(y, f2)
  {
    OneTripleKey(f0, f1, f2, x);
    OneTripleKey(f0, f1, f2, y);
    var tx := DedupeTuples([[f0, f1, f2]], x);
    var ty := DedupeTuples([[f0, f1, f2]], y);
    if tx == ty {
      assert tx[0][0] == ty[0][0] && tx[0][1] == ty[0][1] && tx[0][2] == ty[0][2];
    }
  }

  function IdentityDedupe(e: Identity): (ts: seq<seq<Option<string>>>) {
    DedupeTuples(e.dedupeOn, IdentityAttrs(e))
  }

  function AttachmentDedupe(e: AttachmentEntity): (ts: seq<seq<Option<string>>>) {
    DedupeTuples(e.dedupeOn, AttachmentAttrs(e))
  }

  function MessageDedupe(e: MessageEntity): (ts: seq<seq<Option<string>>>) {
    DedupeTuples(e.dedupeOn, MessageAttrs(e))
  }

  function ActivityDedupe(a: Activity): (ts: seq<seq<Option<string>>>) {
    DedupeTuples(a.dedupeOn, ActivityAttrs(a))
  }
}

=== FILE: rows.dfy ===
/** The rows read from the message store, typed.

    The source reads `SELECT *` rows as string-keyed hashes; here each row is a
    datatype holding the columns the connector looks at. Rows compare by value,
    as Ruby hashes do.
 */
module Rows {
  import opened Wrappers

  /** One message joined with its sender handle and its chat-membership row. */
  datatype MessageRow = MessageRow(
    guid: string,                 // `guid`
    chatId: int,                  // `chat_id` of the chat-membership join
    date: int,                    // `date`, nanoseconds since 2001-01-01
    isFromMe: int,                // `is_from_me`, 0 or 1 in the store
    service: Option<string>,      // `service`: "iMessage", "SMS" or nil
    text: Option<string>,         // `text`
    handleId: Option<string>,     // `id` of the sender handle; nil when the left join found none
    accountGuid: Option<string>)  // `account_guid`

  /** One chat-to-handle membership joined with its handle and chat.
      `handleRowId` stands for the columns that tell two handles with the same
      `id` apart (the handle's own row id and service). */
  datatype ParticipantRow = ParticipantRow(
    chatId: int,
    handleRowId: int,
    id: string,                   // phone number or e-mail address of the handle
    fullName: Option<string>)     // `full_name`, only ever set by contact matching

  /** One attachment row. */
  datatype AttachmentRow = AttachmentRow(
    guid: string,
    mimeType: Option<string>,
    filename: Option<string>)     // may start with "~" for the home directory

  /** One address-book entry as `match_contacts` reads it. */
  datatype Contact = Contact(
    number: Option<string>,
    firstName: Option<string>,
    lastName: Option<string>)

  /** What the extractor hands the transformer for one message: the row and
      its `participants` and `attachments` metadata, either possibly nil. */
  datatype Extraction = Extraction(
    data: MessageRow,
    participants: Option<seq<ParticipantRow>>,
    attachments: Option<seq<AttachmentRow>>)
}

=== FILE: seqs.dfy ===
/** Sequence operations with the meaning of the Ruby collection methods the
    connector uses: `select { ... }.first`, `Array#-` with a one-element
    argument, and `map { ... }.compact`.
 */
module Seqs {
  import opened Wrappers

  /** Index of the first element satisfying `p`, or `None` when there is none. */
  function FindFirst<T>(s: seq<T>, p: T -> bool): (r: Option<nat>)
    ensures r.Some? ==> r.value < |s| && p(s[r.value])
    ensures r.Some? ==> forall j :: 0 <= j < r.value ==> !p(s[j])
    ensures r.None? <==> forall j :: 0 <= j < |s| ==> !p(s[j])
    decreases |s|
  {
    if |s| == 0 then None
    else if p(s[0]) then Some(0)
    else
      match FindFirst(s[1..], p)
      case None => None
      case Some(k) => Some(k + 1)
  }

  /** `s - [x]`: every element equal to `x` is dropped, the rest keep their order. */
  function RemoveAll<T(==)>(s: seq<T>, x: T): (r: seq<T>)
    ensures x !in r
    ensures forall j :: 0 <= j < |r| ==> r[j] in s && r[j] != x
    ensures forall i :: 0 <= i < |s| && s[i] != x ==> s[i] in r
    ensures |r| == |s| - multiset(s)[x]
    decreases |s|
  {
    if |s| == 0 then []
    else
      assert s == [s[0]] + s[1..];
      (if s[0] == x then [] else [s[0]]) + RemoveAll(s[1..], x)
  }

  /** Removing commutes with concatenation, so the survivors keep their relative order. */
  lemma {:induction false} RemoveAllAppend<T>(a: seq<T>, b: seq<T>, x: T)
    ensures RemoveAll(a + b, x) == RemoveAll(a, x) + RemoveAll(b, x)
    decreases |a|
  {
    if |a| == 0 {
      assert a + b == b;
    } else {
      var head := if a[0] == x then [] else [a[0]];
      assert (a + b)[0] == a[0];
      assert (a + b)[1..] == a[1..] + b;
      RemoveAllAppend(a[1..], b, x);
      assert RemoveAll(a + b, x) == head + (RemoveAll(a[1..], x) + RemoveAll(b, x));
      AppendAssoc(head, RemoveAll(a[1..], x), RemoveAll(b, x));
    }
  }

  /** Number of present values in `s`. */
  function CountSome<T>(s: seq<Option<T>>): (n: nat)
    ensures n <= |s|
    decreases |s|
  {
    if |s| == 0 then 0 else (if s[0].Some? then 1 else 0) + CountSome(s[1..])
  }

  /** `Array#compact`: drops the absent values, keeping the present ones in order. */
  function Compact<T>(s: seq<Option<T>>): (r: seq<T>)
    ensures |r| == CountSome(s)
    ensures forall i :: 0 <= i < |s| && s[i].Some? ==> s[i].value in r
    ensures forall j :: 0 <= j < |r| ==> Some(r[j]) in s
    decreases |s|
  {
    if |s| == 0 then []
    else
      assert forall i :: 1 <= i < |s| ==> s[i] == s[1..][i - 1];
      (if s[0].Some? then [s[0].value] else []) + Compact(s[1..])
  }

  /** Compacting commutes with concatenation: order is kept across the whole sequence. */
  lemma {:induction false} CompactAppend<T>(a: seq<Option<T>>, b: seq<Option<T>>)
    ensures Compact(a + b) == Compact(a) + Compact(b)
    decreases |a|
  {
    if |a| == 0 {
      assert a + b == b;
    } else {
      var head := if a[0].Some? then [a[0].value] else [];
      assert (a + b)[0] == a[0];
      assert (a + b)[1..] == a[1..] + b;
      CompactAppend(a[1..], b);
      assert Compact(a + b) == head + (Compact(a[1..]) + Compact(b));
      AppendAssoc(head, Compact(a[1..]), Compact(b));
    }
  }

  /** Nothing survives when every value is absent. */
  lemma {:induction false} CompactAllNone<T>(s: seq<Option<T>>)
    requires forall i :: 0 <= i < |s| ==> s[i].None?
    ensures Compact(s) == []
    decreases |s|
  {
    if |s| > 0 {
      CompactAllNone(s[1..]);
    }
  }

  /** `s.map { |x| f(x) }` */
  function Map<A, B>(s: seq<A>, f: A -> B): (r: seq<B>)
    ensures |r| == |s|
    ensures forall i :: 0 <= i < |s| ==> r[i] == f(s[i])
  {
    seq(|s|, i requires 0 <= i < |s| => f(s[i]))
  }

  /** Mapping commutes with concatenation. */
  lemma MapAppend<A, B>(a: seq<A>, b: seq<A>, f: A -> B)
    ensures Map(a + b, f) == Map(a, f) + Map(b, f)
  {
    assert forall i :: 0 <= i < |a| ==> (a + b)[i] == a[i];
    assert forall i :: |a| <= i < |a + b| ==> (a + b)[i] == b[i - |a|];
  }

  lemma AppendAssoc<T>(a: seq<T>, b: seq<T>, c: seq<T>)
    ensures a + (b + c) == a + b + c
  {
  }
}

=== FILE: text.dfy ===
/** The Ruby string operations the connector relies on, on `seq<char>`:
    `downcase`, `strip`, `presence`, `gsub` of one character, `split("/").first`,
    `File.basename` and integer interpolation into a string.
 */
module Text {
  import opened Wrappers
  import opened Seqs

  // ---------------------------------------------------------------------------
  // downcase

  predicate IsAsciiUpper(c: char) {
    'A' <= c <= 'Z'
  }

  function LowerChar(c: char): (c': char) {
    if IsAsciiUpper(c) then (c as int + 32) as char else c
  }

  /** `String#downcase`, restricted to the ASCII letters. */
  function Downcase(s: string): (r: string)
    ensures |r| == |s|
    ensures forall i :: 0 <= i < |r| ==> !IsAsciiUpper(r[i])
    ensures forall i :: 0 <= i < |s| && !IsAsciiUpper(s[i]) ==> r[i] == s[i]
    ensures forall i :: 0 <= i < |s| && IsAsciiUpper(s[i]) ==> r[i] as int == s[i] as int + 32
  {
    seq(|s|, i requires 0 <= i < |s| => LowerChar(s[i]))
  }

  /** Lower-casing twice is lower-casing once. */
  lemma DowncaseIdempotent(s: string)
    ensures Downcase(Downcase(s)) == Downcase(s)
  {
  }

  // ---------------------------------------------------------------------------
  // strip and presence

  /** The characters `String#strip` removes: NUL and the ASCII whitespace. */
  predicate IsStripChar(c: char) {
    c == '\0' || c == ' ' || c == '\t' || c == '\n' || c == '\U{000B}' || c == '\U{000C}' || c == '\r'
  }

  /** The left cut of `String#strip`: the first index from `i` on that does
      not hold a strip character. */
  function LeadingStrips(s: string, i: nat): (n: nat)
    requires i <= |s|
    ensures i <= n <= |s|
    ensures forall k :: i <= k < n ==> IsStripChar(s[k])
    ensures n < |s| ==> !IsStripChar(s[n])
    decreases |s| - i
  {
    if i < |s| && IsStripChar(s[i]) then LeadingStrips(s, i + 1) else i
  }

  /** The right cut of `String#strip`, never below the left cut `lo`: the end
      of `s[..j]` once its trailing strip characters are gone. */
  function TrailingStrips(s: string, j: nat, lo: nat): (n: nat)
    requires lo <= j <= |s|
    ensures lo <= n <= j
    ensures forall k :: n <= k < j ==> IsStripChar(s[k])
    ensures n > lo ==> !IsStripChar(s[n - 1])
    decreases j - lo
  {
    if j > lo && IsStripChar(s[j - 1]) then TrailingStrips(s, j - 1, lo) else j
  }

  /** Only strip characters lie outside `s[i..j]`. */
  predicate IsStripped(s: string, i: int, j: int)
    requires 0 <= i <= j <= |s|
  {
    && (forall k :: 0 <= k < i ==> IsStripChar(s[k]))
    && (forall k :: j <= k < |s| ==> IsStripChar(s[k]))
  }

  /** `String#strip`: a contiguous slice of `s` with the strip characters removed from both ends. */
  function Strip(s: string): (r: string)
    ensures r == [] <==> forall k :: 0 <= k < |s| ==> IsStripChar(s[k])
    ensures r != [] ==> !IsStripChar(r[0]) && !IsStripChar(r[|r| - 1])
    ensures exists i, j :: 0 <= i <= j <= |s| && r == s[i..j] && IsStripped(s, i, j)
  {
    var i := LeadingStrips(s, 0);
    var j := TrailingStrips(s, |s|, i);
    assert IsStripped(s, i, j);
    s[i..j]
  }

  /** Stripping a stripped string changes nothing. */
  lemma StripIdempotent(s: string)
    ensures Strip(Strip(s)) == Strip(s)
  {
    var t := Strip(s);
    assert LeadingStrips(t, 0) == 0;
    assert TrailingStrips(t, |t|, 0) == |t|;
    assert t[0..|t|] == t;
  }

  /** Ruby's `[[:space:]]` on a Unicode string: the characters with the White_Space property. */
  predicate IsUnicodeSpace(c: char) {
    ('\t' <= c <= '\r') || c == ' ' || c == '\U{0085}' || c == '\U{00A0}' || c == '\U{1680}'
    || ('\U{2000}' <= c <= '\U{200A}') || c == '\U{2028}' || c == '\U{2029}'
    || c == '\U{202F}' || c == '\U{205F}' || c == '\U{3000}'
  }

  /** ActiveSupport's `String#blank?`: empty, or white space only. */
  predicate IsBlank(s: string) {
    forall k :: 0 <= k < |s| ==> IsUnicodeSpace(s[k])
  }

  /** ActiveSupport's `presence`: the string itself unless it is blank, then nil. */
  function Presence(s: string): (r: Option<string>)
    ensures r.None? <==> IsBlank(s)
    ensures r.Some? ==> r.value == s
  {
    if IsBlank(s) then None else Some(s)
  }

  // ---------------------------------------------------------------------------
  // gsub of a single character

  /** `s.gsub(c, rep)` for a one-character pattern: every `c` becomes `rep`,
      with `rep` taken literally (no back-reference expansion). */
  function ReplaceAll(s: string, c: char, rep: string): (r: string)
    ensures c !in s ==> r == s
    ensures c !in rep ==> c !in r
    ensures |rep| == 1 ==> |r| == |s|
    decreases |s|
  {
    if |s| == 0 then ""
    else (if s[0] == c then rep else [s[0]]) + ReplaceAll(s[1..], c, rep)
  }

  /** Replacing distributes over concatenation. */
  lemma {:induction false} ReplaceAllAppend(a: string, b: string, c: char, rep: string)
    ensures ReplaceAll(a + b, c, rep) == ReplaceAll(a, c, rep) + ReplaceAll(b, c, rep)
    decreases |a|
  {
    if |a| == 0 {
      assert a + b == b;
    } else {
      var head := if a[0] == c then rep else [a[0]];
      assert (a + b)[0] == a[0];
      assert (a + b)[1..] == a[1..] + b;
      ReplaceAllAppend(a[1..], b, c, rep);
      AppendAssoc(head, ReplaceAll(a[1..], c, rep), ReplaceAll(b, c, rep));
    }
  }

  /** One character becomes `rep` when it is `c` and stays otherwise. */
  lemma ReplaceAllSingle(x: char, c: char, rep: string)
    ensures ReplaceAll([x], c, rep) == if x == c then rep else [x]
  {
    assert [x][1..] == [];
  }

  // ---------------------------------------------------------------------------
  // split("/").first

  /** The text before the first '/', or all of `s` when it has none. */
  function PrefixBeforeSlash(s: string): (t: string)
    ensures |t| <= |s| && t == s[..|t|]
    ensures '/' !in t
    ensures |t| == |s| || s[|t|] == '/'
    decreases |s|
  {
    if |s| == 0 || s[0] == '/' then "" else [s[0]] + PrefixBeforeSlash(s[1..])
  }

  /** `s.split("/").first`. Ruby's split drops trailing empty fields, so a string
      made of slashes only (the empty string included) splits to `[]` and gives nil;
      otherwise the first field is the text before the first '/'. */
  function SplitFirst(s: string): (r: Option<string>)
    ensures r.None? <==> forall k :: 0 <= k < |s| ==> s[k] == '/'
    ensures r.Some? ==> '/' !in r.value && |r.value| <= |s| && r.value == s[..|r.value|]
    ensures r.Some? ==> |r.value| == |s| || s[|r.value|] == '/'
  {
    if forall k :: 0 <= k < |s| ==> s[k] == '/' then None else Some(PrefixBeforeSlash(s))
  }

  // ---------------------------------------------------------------------------
  // File.basename

  /** The path without its trailing '/' characters. */
  function TrimTrailingSlashes(s: string): (r: string)
    ensures |r| <= |s| && r == s[..|r|]
    ensures forall k :: |r| <= k < |s| ==> s[k] == '/'
    ensures r == [] || r[|r| - 1] != '/'
    decreases |s|
  {
    if |s| > 0 && s[|s| - 1] == '/' then TrimTrailingSlashes(s[..|s| - 1]) else s
  }

  /** The longest suffix without a '/'. */
  function AfterLastSlash(s: string): (r: string)
    ensures |r| <= |s| && r == s[|s| - |r|..]
    ensures '/' !in r
    ensures |r| == |s| || s[|s| - |r| - 1] == '/'
    decreases |s|
  {
    if |s| == 0 || s[|s| - 1] == '/' then "" else AfterLastSlash(s[..|s| - 1]) + [s[|s| - 1]]
  }

  /** `File.basename(path)` with '/' as the only separator: "" for "", "/" for a
      path of slashes only, otherwise the last component after trailing slashes are dropped. */
  function Basename(path: string): (r: string)
    ensures path == [] ==> r == []
    ensures path != [] && (forall k :: 0 <= k < |path| ==> path[k] == '/') ==> r == "/"
    ensures (exists k :: 0 <= k < |path| && path[k] != '/') ==>
      r != [] && '/' !in r && r == AfterLastSlash(TrimTrailingSlashes(path))
  {
    var t := TrimTrailingSlashes(path);
    if t == [] then
      (if path == [] then "" else "/")
    else
      AfterLastSlash(t)
  }

  // ---------------------------------------------------------------------------
  // integers in decimal, as `"#{n}"` prints them

  predicate IsDigit(c: char) {
    '0' <= c <= '9'
  }

  predicate AllDigits(s: string) {
    forall k :: 0 <= k < |s| ==> IsDigit(s[k])
  }

  function DigitChar(d: nat): (c: char)
    requires d < 10
    ensures IsDigit(c)
  {
    ('0' as int + d) as char
  }

  function DigitValue(c: char): (d: nat)
    requires IsDigit(c)
    ensures d < 10
  {
    c as int - '0' as int
  }

  /** Decimal digits of `n`, most significant first, without leading zeros. */
  function NatToString(n: nat): (s: string)
    ensures |s| > 0 && AllDigits(s)
    ensures |s| > 1 ==> s[0] != '0'
    ensures s[0] == '0' <==> n == 0
    decreases n
  {
    if n < 10 then [DigitChar(n)] else NatToString(n / 10) + [DigitChar(n % 10)]
  }

  /** The value of a string of decimal digits. */
  function DigitsValue(s: string): (n: nat)
    requires AllDigits(s)
    decreases |s|
  {
    if |s| == 0 then 0 else DigitsValue(s[..|s| - 1]) * 10 + DigitValue(s[|s| - 1])
  }

  lemma {:induction false} NatToStringRoundTrip(n: nat)
    ensures DigitsValue(NatToString(n)) == n
    decreases n
  {
    var s := NatToString(n);
    if n >= 10 {
      NatToStringRoundTrip(n / 10);
      assert s[..|s| - 1] == NatToString(n / 10);
    }
  }

  /** Integer interpolation: an optional minus sign followed by the digits. */
  function IntToString(i: int): (s: string)
    ensures |s| > 0 && ' ' !in s
    ensures i >= 0 <==> AllDigits(s)
    ensures |s| > 1 && s[0] != '-' ==> s[0] != '0'
    ensures s[0] == '-' ==> |s| > 1 && s[1] != '0'
  {
    if i < 0 then
      var s := "-" + NatToString(-i);
      assert s[0] == '-' && !IsDigit(s[0]);
      assert s[1..] == NatToString(-i);
      s
    else NatToString(i)
  }

  /** Reads back what `IntToString` prints; nil for anything else. */
  function ParseInt(s: string): (r: Option<int>) {
    if |s| > 1 && s[0] == '-' && AllDigits(s[1..]) then Some(-(DigitsValue(s[1..]) as int))
    else if |s| > 0 && AllDigits(s) then Some(DigitsValue(s))
    else None
  }

  /** The decimal text of an integer determines the integer. */
  lemma IntToStringRoundTrip(i: int)
    ensures ParseInt(IntToString(i)) == Some(i)
  {
    var s := IntToString(i);
    if i < 0 {
      assert s[1..] == NatToString(-i);
      NatToStringRoundTrip(-i);
    } else {
      NatToStringRoundTrip(i);
    }
  }

  /** Distinct integers print differently. */
  lemma IntToStringInjective(i: int, j: int)
    requires IntToString(i) == IntToString(j)
    ensures i == j
  {
    IntToStringRoundTrip(i);
    IntToStringRoundTrip(j);
  }
}

=== FILE: transformer.dfy ===
/** The row-to-activity transformer.

    One message row, its chat's participant rows and its attachment rows become
    one "messaged" activity: who sent it (the actor), who received it (the
    consumers), the message entity with its media, and the dedupe keys of all
    of them.
 */
module Transformer {
  import opened Wrappers
  import opened Seqs
  import opened Text
  import opened Epoch
  import opened Rows
  import opened Records

  /** The connector options the transformer reads: `my_phone_slug` and `my_name`. */
  datatype Options = Options(myPhoneSlug: Option<string>, myName: Option<string>)

  /** The ambient collaborators, made explicit: the home directory (`Dir.home`),
      file existence (`File.exist?`), the base64 payload of a file given its
      path and MIME type, and the text recognized in an image file (nil when
      none is found). */
  datatype Env = Env(
    home: string,
    fileExists: string -> bool,
    toBase64: (string, string) -> string,
    recognizeText: string -> Option<string>)

  datatype TransformError =
    | CouldNotBuildIdentity   // UntransformableRecordError: no participant row is the sender
    | NoParticipantList       // the extraction carried no participants; Ruby calls a method on nil

  /** Who sent the message and who received it. */
  datatype Actors = Actors(actor: Identity, consumers: seq<Identity>)

  const MessageVerb: string := "messaged"
  const DefaultProvider: string := "imessage"
  const MediaTypes: seq<string> := ["image", "audio", "video"]

  // ---------------------------------------------------------------------------
  // providers

  /** `build_provider`: the message provider is the lower-cased service, or
      "imessage" when the service is nil. */
  function BuildProvider(service: Option<string>): (r: string)
    ensures service.None? ==> r == DefaultProvider
    ensures service.Some? ==> |r| == |service.value|
    ensures service.Some? ==> forall i :: 0 <= i < |r| ==> r[i] == LowerChar(service.value[i])
    ensures forall i :: 0 <= i < |r| ==> !IsAsciiUpper(r[i])
    ensures service.Some? && (forall i :: 0 <= i < |service.value| ==> !IsAsciiUpper(service.value[i])) ==>
      r == service.value
  {
    match service
    case Some(s) => Downcase(s)
    case None => DefaultProvider
  }

  /** `identity_provider`: identities of SMS messages live in the "phone"
      namespace, those of every other message (nil service included) in "icloud". */
  function IdentityProvider(service: Option<string>): (r: string)
    ensures r == "phone" <==> service == Some("SMS")
    ensures r == "icloud" <==> service != Some("SMS")
  {
    if service == Some("SMS") then "phone"
    else if service == Some("iMessage") then "icloud"
    else "icloud"
  }

  /** The three services seen in the wild and what they map to. */
  lemma ServiceMappings()
    ensures BuildProvider(Some("SMS")) == "sms" && IdentityProvider(Some("SMS")) == "phone"
    ensures BuildProvider(Some("iMessage")) == "imessage" && IdentityProvider(Some("iMessage")) == "icloud"
    ensures BuildProvider(None) == "imessage" && IdentityProvider(None) == "icloud"
  {
    assert Downcase("SMS") == "sms";
    assert Downcase("iMessage") == "imessage";
  }

  // ---------------------------------------------------------------------------
  // identities

  /** `build_identity`: the identity of one participant row. */
  function BuildIdentity(p: ParticipantRow, service: Option<string>): (e: Identity)
    ensures e.slug == Some(p.id) && e.title == p.fullName && e.providerId.None?
    ensures e.provider == "phone" <==> service == Some("SMS")
    ensures IdentityDedupe(e) == [[Some("identity"), Some(p.id), Some(IdentityProvider(service))]]
  {
    var e := Identity("identity", Some(p.id), p.fullName, IdentityProvider(service), None,
                      [[Represents, Slug, Provider]]);
    OneTripleKey(Represents, Slug, Provider, IdentityAttrs(e));
    e
  }

  /** `build_identity_mine`: the operator's identity, from the options and the
      message's account. */
  function BuildIdentityMine(m: MessageRow, opts: Options): (e: Identity)
    ensures e.slug == opts.myPhoneSlug && e.title == opts.myName && e.providerId == m.accountGuid
    ensures e.provider == "phone" <==> m.service == Some("SMS")
    ensures IdentityDedupe(e) ==
      [[Some("identity"), opts.myPhoneSlug, Some(IdentityProvider(m.service))],
       [Some("identity"), Some(IdentityProvider(m.service)), m.accountGuid]]
  {
    var e := Identity("identity", opts.myPhoneSlug, opts.myName, IdentityProvider(m.service), m.accountGuid,
                      [[Represents, Slug, Provider], [Represents, Provider, ProviderId]]);
    var d := IdentityDedupe(e);
    assert d[0] == [Some("identity"), opts.myPhoneSlug, Some(IdentityProvider(m.service))];
    assert d[1] == [Some("identity"), Some(IdentityProvider(m.service)), m.accountGuid];
    e
  }

  /** When `my_phone_slug` is the handle id of a participant, the operator's
      first key collapses with that participant's identity. */
  lemma MineDedupe(m: MessageRow, opts: Options, p: ParticipantRow)
    ensures opts.myPhoneSlug == Some(p.id) ==>
      IdentityDedupe(BuildIdentityMine(m, opts))[0] == IdentityDedupe(BuildIdentity(p, m.service))[0]
  {
  }

  /** `participants.collect { |p| build_identity(p) }` */
  function Identities(ps: seq<ParticipantRow>, service: Option<string>): (ids: seq<Identity>)
    ensures |ids| == |ps|
    ensures forall i :: 0 <= i < |ps| ==> ids[i] == BuildIdentity(ps[i], service)
  {
    seq(|ps|, i requires 0 <= i < |ps| => BuildIdentity(ps[i], service))
  }

  /** Two participant identities share their dedupe key exactly when they have
      the same handle id in the same identity namespace; the display name does
      not take part. */
  lemma IdentityDedupeIdentity(p: ParticipantRow, q: ParticipantRow, s1: Option<string>, s2: Option<string>)
    ensures IdentityDedupe(BuildIdentity(p, s1)) == IdentityDedupe(BuildIdentity(q, s2))
      <==> p.id == q.id && IdentityProvider(s1) == IdentityProvider(s2)
  {
    OneTripleKeyEq(Represents, Slug, Provider, IdentityAttrs(BuildIdentity(p, s1)), IdentityAttrs(BuildIdentity(q, s2)));
  }

  // ---------------------------------------------------------------------------
  // actor and consumers

  /** `k` is the first participant whose handle id is the message's sender id. */
  predicate IsFirstSender(ps: seq<ParticipantRow>, handleId: Option<string>, k: int) {
    && 0 <= k < |ps|
    && Some(ps[k].id) == handleId
    && forall j :: 0 <= j < k ==> Some(ps[j].id) != handleId
  }

  /** `participants.select { |p| p['id'] == message['id'] }.first`, as an index. */
  function SenderIndex(ps: seq<ParticipantRow>, handleId: Option<string>): (r: Option<nat>)
    ensures r.Some? ==> IsFirstSender(ps, handleId, r.value)
    ensures r.None? <==> forall j :: 0 <= j < |ps| ==> Some(ps[j].id) != handleId
  {
    FindFirst(ps, (p: ParticipantRow) => Some(p.id) == handleId)
  }

  /** `set_actors`. For the operator's own messages the actor is "mine" and the
      consumers are all participants. Otherwise the actor is the first
      participant whose id is the sender's, and the consumers are the remaining
      participants (every row equal to the sender's removed, order kept)
      followed by "mine"; with no such participant the record is untransformable. */
  function SetActors(m: MessageRow, ps: seq<ParticipantRow>, opts: Options): (r: Result<Actors, TransformError>)
    ensures m.isFromMe == 1 ==>
      && r.Success?
      && r.value.actor == BuildIdentityMine(m, opts)
      && r.value.consumers == Identities(ps, m.service)
      && BuildIdentityMine(m, opts) !in r.value.consumers
    ensures m.isFromMe != 1 ==>
      (r.Success? <==> exists i :: 0 <= i < |ps| && Some(ps[i].id) == m.handleId)
    ensures r.Failure? ==> r.error == CouldNotBuildIdentity
    ensures m.isFromMe != 1 && r.Success? ==>
      exists k :: IsFirstSender(ps, m.handleId, k)
        && r.value.actor == BuildIdentity(ps[k], m.service)
        && r.value.consumers == Identities(RemoveAll(ps, ps[k]), m.service) + [BuildIdentityMine(m, opts)]
        && |r.value.consumers| == |ps| - multiset(ps)[ps[k]] + 1
    ensures m.isFromMe != 1 && r.Success? ==>
      && r.value.consumers[|r.value.consumers| - 1] == BuildIdentityMine(m, opts)
      && BuildIdentityMine(m, opts) !in r.value.consumers[..|r.value.consumers| - 1]
  {
    var me := BuildIdentityMine(m, opts);
    if m.isFromMe == 1 then
      Success(Actors(me, Identities(ps, m.service)))
    else
      match SenderIndex(ps, m.handleId)
      case None => Failure(CouldNotBuildIdentity)
      case Some(k) =>
        var receivers := Identities(RemoveAll(ps, ps[k]), m.service);
        assert (receivers + [me])[..|receivers|] == receivers;
        Success(Actors(BuildIdentity(ps[k], m.service), receivers + [me]))
  }

  /** Removal compares whole rows: a second row with the sender's handle id but
      another handle row survives, so the sender's identity is then also a consumer. */
  lemma SenderRemovedByRowEquality()
    ensures
      var p1 := ParticipantRow(1, 10, "+15551234567", None);
      var p2 := ParticipantRow(1, 11, "+15551234567", None);
      var m := MessageRow("g", 1, 0, 0, Some("iMessage"), None, Some("+15551234567"), None);
      var r := SetActors(m, [p1, p2], Options(None, None));
      r.Success? && r.value.actor == BuildIdentity(p1, m.service) && r.value.actor in r.value.consumers
  {
    var p1 := ParticipantRow(1, 10, "+15551234567", None);
    var p2 := ParticipantRow(1, 11, "+15551234567", None);
    var m := MessageRow("g", 1, 0, 0, Some("iMessage"), None, Some("+15551234567"), None);
    assert SenderIndex([p1, p2], m.handleId) == Some(0);
    assert RemoveAll([p2], p1) == [p2];
    assert RemoveAll([p1, p2], p1) == [p2];
  }

  // ---------------------------------------------------------------------------
  // attachments

  predicate IsMediaType(major: Option<string>) {
    major.Some? && major.value in MediaTypes
  }

  /** The attachment's path with every "~" replaced by the home directory. */
  function ExpandHome(filename: string, home: string): (path: string)
    ensures '~' !in home ==> '~' !in path
    ensures '~' !in filename ==> path == filename
  {
    ReplaceAll(filename, '~', home)
  }

  /** Expansion works piecewise: a path expands as its two halves do. */
  lemma ExpandHomeAppend(a: string, b: string, home: string)
    ensures ExpandHome(a + b, home) == ExpandHome(a, home) + ExpandHome(b, home)
  {
    ReplaceAllAppend(a, b, '~', home);
  }

  /** A leading "~" becomes the home directory, and any other leading
      character is kept. */
  lemma ExpandHomeHead(x: char, rest: string, home: string)
    ensures ExpandHome([x] + rest, home) == (if x == '~' then home else [x]) + ExpandHome(rest, home)
    ensures ExpandHome("~" + rest, home) == home + ExpandHome(rest, home)
  {
    ExpandHomeAppend([x], rest, home);
    ReplaceAllSingle(x, '~', home);
    ExpandHomeAppend("~", rest, home);
    ReplaceAllSingle('~', '~', home);
  }

  /** `build_attachment`: nil unless the MIME type is present with an image,
      audio or video major type, and the filename is present and names an
      existing file after home expansion. An accepted attachment is an entity
      of the major type, titled with the original filename's base name, with
      OCR text only for images. */
  function BuildAttachment(a: AttachmentRow, env: Env): (r: Option<AttachmentEntity>)
    ensures r.Some? <==>
      && a.mimeType.Some?
      && IsMediaType(SplitFirst(a.mimeType.value))
      && a.filename.Some?
      && env.fileExists(ExpandHome(a.filename.value, env.home))
    ensures r.Some? ==>
      var major := SplitFirst(a.mimeType.value).value;
      var path := ExpandHome(a.filename.value, env.home);
      && major in MediaTypes
      && r.value.provider == DefaultProvider
      && r.value.providerId == a.guid
      && r.value.represents == major
      && r.value.title == Basename(a.filename.value)
      && r.value.ocrText == (if major == "image" then env.recognizeText(path) else None)
      && r.value.dedupeOn == [[Provider, ProviderId, Represents]]
      && r.value.attachments == [BinaryAttachment(env.toBase64(path, a.mimeType.value))]
  {
    if a.mimeType.None? then None
    else
      var major := SplitFirst(a.mimeType.value);
      if !IsMediaType(major) then None
      else if a.filename.None? then None
      else
        var path := ExpandHome(a.filename.value, env.home);
        if !env.fileExists(path) then None
        else
          var ocr := if major.value == "image" then env.recognizeText(path) else None;
          Some(AttachmentEntity(
            DefaultProvider, a.guid, major.value, Basename(a.filename.value), ocr,
            [[Provider, ProviderId, Represents]],
            [BinaryAttachment(env.toBase64(path, a.mimeType.value))]))
  }

  /** The major types of two common MIME types. */
  lemma MajorTypeExamples()
    ensures SplitFirst("text/plain") == Some("text")
    ensures SplitFirst("image/png") == Some("image")
  {
    assert "text/plain"[4] == '/';
    assert "image/png"[5] == '/';
    assert PrefixBeforeSlash("text/plain") == "text";
    assert PrefixBeforeSlash("image/png") == "image";
  }

  /** A "text/plain" attachment is always rejected; an "image/png" one whose
      file exists is always accepted, as an image. */
  lemma AttachmentExamples(a: AttachmentRow, env: Env)
    ensures a.mimeType == Some("text/plain") ==> BuildAttachment(a, env).None?
    ensures (a.mimeType == Some("image/png") && a.filename.Some?
             && env.fileExists(ExpandHome(a.filename.value, env.home))) ==>
      BuildAttachment(a, env).Some? && BuildAttachment(a, env).value.represents == "image"
  {
    MajorTypeExamples();
    assert "text" !in MediaTypes;
    assert "image" in MediaTypes;
  }

  /** Two accepted attachments share their dedupe key exactly when they have
      the same guid and the same major type. */
  lemma AttachmentDedupeIdentity(a: AttachmentRow, b: AttachmentRow, env: Env)
    requires BuildAttachment(a, env).Some? && BuildAttachment(b, env).Some?
    ensures AttachmentDedupe(BuildAttachment(a, env).value) == AttachmentDedupe(BuildAttachment(b, env).value)
      <==> a.guid == b.guid && SplitFirst(a.mimeType.value) == SplitFirst(b.mimeType.value)
  {
    var ea := BuildAttachment(a, env).value;
    var eb := BuildAttachment(b, env).value;
    OneTripleKeyEq(Provider, ProviderId, Represents, AttachmentAttrs(ea), AttachmentAttrs(eb));
  }

  /** `build_attachment` with the environment fixed. */
  function Builder(env: Env): (f: AttachmentRow -> Option<AttachmentEntity>) {
    a => BuildAttachment(a, env)
  }

  /** `attachments.map { |a| build_attachment(a) }` */
  function BuildAll(atts: seq<AttachmentRow>, env: Env): (built: seq<Option<AttachmentEntity>>)
    ensures |built| == |atts|
    ensures forall i :: 0 <= i < |atts| ==> built[i] == BuildAttachment(atts[i], env)
  {
    Map(atts, Builder(env))
  }

  /** `attachments.map { |a| build_attachment(a) }.compact`: the accepted
      attachments, in input order. */
  function Contains(atts: seq<AttachmentRow>, env: Env): (r: seq<AttachmentEntity>)
    ensures |r| <= |atts|
    ensures forall i :: 0 <= i < |atts| && BuildAttachment(atts[i], env).Some? ==>
      BuildAttachment(atts[i], env).value in r
    ensures forall j :: 0 <= j < |r| ==> exists i :: 0 <= i < |atts| && BuildAttachment(atts[i], env) == Some(r[j])
  {
    var built := BuildAll(atts, env);
    var r := Compact(built);
    assert forall j :: 0 <= j < |r| ==> Some(r[j]) in built;
    r
  }

  /** The accepted attachments of a concatenation are those of each part, in order. */
  lemma ContainsAppend(a: seq<AttachmentRow>, b: seq<AttachmentRow>, env: Env)
    ensures Contains(a + b, env) == Contains(a, env) + Contains(b, env)
  {
    MapAppend(a, b, Builder(env));
    CompactAppend(Map(a, Builder(env)), Map(b, Builder(env)));
  }

  /** A single attachment contributes its record when accepted and nothing otherwise. */
  lemma ContainsSingle(a: AttachmentRow, env: Env)
    ensures Contains([a], env) == (if BuildAttachment(a, env).Some? then [BuildAttachment(a, env).value] else [])
  {
    var built := BuildAll([a], env);
    assert built == [BuildAttachment(a, env)];
    assert built[1..] == [];
  }

  // ---------------------------------------------------------------------------
  // message and activity

  /** `build_message`: the message entity with its consumers and media. */
  function BuildMessage(m: MessageRow, actors: Actors, atts: seq<AttachmentRow>, env: Env): (e: MessageEntity)
    ensures e.body == m.text && e.consumers == actors.consumers
    ensures e.providerId == m.guid && e.provider == BuildProvider(m.service)
    ensures e.contains == Contains(atts, env) && |e.contains| <= |atts|
    ensures MessageDedupe(e) == [[Some("message"), Some(BuildProvider(m.service)), Some(m.guid)]]
  {
    var e := MessageEntity(m.text, m.guid, "message", BuildProvider(m.service),
                           [[Represents, Provider, ProviderId]], actors.consumers, Contains(atts, env));
    OneTripleKey(Represents, Provider, ProviderId, MessageAttrs(e));
    e
  }

  /** `build_messaged`: the activity wrapping the message entity. */
  function BuildMessaged(m: MessageRow, actors: Actors, atts: seq<AttachmentRow>, env: Env): (a: Activity)
    ensures a.verb == MessageVerb && a.actor == actors.actor
    ensures a.providerId == m.guid && a.provider == BuildProvider(m.service)
    ensures a.involved == BuildMessage(m, actors, atts, env)
    ensures UnixToIos(a.endAt) * NanosPerSecond <= m.date < (UnixToIos(a.endAt) + 1) * NanosPerSecond
    ensures ActivityDedupe(a) == [[Some(BuildProvider(m.service)), Some(MessageVerb), Some(m.guid)]]
    ensures MessageDedupe(a.involved) == [[Some("message"), Some(BuildProvider(m.service)), Some(m.guid)]]
  {
    var a := Activity(Timestamp(m.date), MessageVerb, m.guid, BuildProvider(m.service),
                      [[Provider, Verb, ProviderId]], BuildMessage(m, actors, atts, env), actors.actor);
    OneTripleKey(Provider, Verb, ProviderId, ActivityAttrs(a));
    a
  }

  /** `transform`: the activity for one extraction. Missing attachment metadata
      counts as no attachments; missing participants fail. */
  function Transform(ex: Extraction, opts: Options, env: Env): (r: Result<Activity, TransformError>)
    ensures ex.participants.None? ==> r == Failure(NoParticipantList)
    ensures ex.participants.Some? ==>
      (r.Success? <==> ex.data.isFromMe == 1 ||
                        exists i :: 0 <= i < |ex.participants.value| &&
                                    Some(ex.participants.value[i].id) == ex.data.handleId)
    ensures ex.participants.Some? && r.Failure? ==> r.error == CouldNotBuildIdentity
    ensures r.Success? ==>
      var a := r.value;
      var m := ex.data;
      && a.verb == MessageVerb
      && a.providerId == m.guid
      && a.provider == BuildProvider(m.service)
      && a.dedupeOn == [[Provider, Verb, ProviderId]]
      && (UnixToIos(a.endAt) * NanosPerSecond <= m.date < (UnixToIos(a.endAt) + 1) * NanosPerSecond)
      && a.involved.represents == "message"
      && a.involved.body == m.text
      && a.involved.providerId == m.guid
      && a.involved.provider == a.provider
      && a.involved.dedupeOn == [[Represents, Provider, ProviderId]]
      && a.involved.contains == Contains(ex.attachments.GetOr([]), env)
      && Success(Actors(a.actor, a.involved.consumers)) == SetActors(m, ex.participants.value, opts)
  {
    match ex.participants
    case None => Failure(NoParticipantList)
    case Some(ps) =>
      match SetActors(ex.data, ps, opts)
      case Failure(e) => Failure(e)
      case Success(actors) => Success(BuildMessaged(ex.data, actors, ex.attachments.GetOr([]), env))
  }

  /** A message the operator sent: the actor is "mine", the consumers are the
      participants' identities in order, and "mine" is not among them. */
  lemma TransformFromMe(ex: Extraction, opts: Options, env: Env)
    requires ex.participants.Some? && ex.data.isFromMe == 1
    ensures Transform(ex, opts, env).Success?
    ensures Transform(ex, opts, env).value.actor == BuildIdentityMine(ex.data, opts)
    ensures Transform(ex, opts, env).value.involved.consumers == Identities(ex.participants.value, ex.data.service)
    ensures BuildIdentityMine(ex.data, opts) !in Transform(ex, opts, env).value.involved.consumers
  {
  }

  /** A received message whose sender is among the participants: the actor is
      the first matching participant, the consumers are the others followed by "mine". */
  lemma TransformReceived(ex: Extraction, opts: Options, env: Env, k: nat)
    requires ex.participants.Some? && ex.data.isFromMe != 1
    requires IsFirstSender(ex.participants.value, ex.data.handleId, k)
    ensures Transform(ex, opts, env).Success?
    ensures Transform(ex, opts, env).value.actor == BuildIdentity(ex.participants.value[k], ex.data.service)
    ensures Transform(ex, opts, env).value.involved.consumers ==
      Identities(RemoveAll(ex.participants.value, ex.participants.value[k]), ex.data.service)
        + [BuildIdentityMine(ex.data, opts)]
  {
    var ps := ex.participants.value;
    var r := SetActors(ex.data, ps, opts);
    assert r.Success?;
    var j :| IsFirstSender(ps, ex.data.handleId, j)
        && r.value.actor == BuildIdentity(ps[j], ex.data.service)
        && r.value.consumers == Identities(RemoveAll(ps, ps[j]), ex.data.service) + [BuildIdentityMine(ex.data, opts)];
    assert j == k;
  }

  /** A received message whose sender id matches no participant produces no record. */
  lemma TransformUnknownSender(ex: Extraction, opts: Options, env: Env)
    requires ex.participants.Some? && ex.data.isFromMe != 1
    requires forall i :: 0 <= i < |ex.participants.value| ==> Some(ex.participants.value[i].id) != ex.data.handleId
    ensures Transform(ex, opts, env) == Failure(CouldNotBuildIdentity)
  {
  }

  /** The activity's dedupe key is (provider, "messaged", guid): two transformed
      messages collapse exactly when they have the same provider and guid. */
  lemma ActivityDedupeIdentity(e1: Extraction, e2: Extraction, opts: Options, env: Env)
    requires Transform(e1, opts, env).Success? && Transform(e2, opts, env).Success?
    ensures ActivityDedupe(Transform(e1, opts, env).value) == ActivityDedupe(Transform(e2, opts, env).value)
      <==> BuildProvider(e1.data.service) == BuildProvider(e2.data.service) && e1.data.guid == e2.data.guid
  {
    var a1 := Transform(e1, opts, env).value;
    var a2 := Transform(e2, opts, env).value;
    OneTripleKeyEq(Provider, Verb, ProviderId, ActivityAttrs(a1), ActivityAttrs(a2));
  }

  /** The message entity's dedupe key is ("message", provider, guid), independent
      of the activity's: it collapses on the same condition. */
  lemma MessageDedupeIdentity(e1: Extraction, e2: Extraction, opts: Options, env: Env)
    requires Transform(e1, opts, env).Success? && Transform(e2, opts, env).Success?
    ensures MessageDedupe(Transform(e1, opts, env).value.involved) == MessageDedupe(Transform(e2, opts, env).value.involved)
      <==> BuildProvider(e1.data.service) == BuildProvider(e2.data.service) && e1.data.guid == e2.data.guid
  {
    var m1 := Transform(e1, opts, env).value.involved;
    var m2 := Transform(e2, opts, env).value.involved;
    OneTripleKeyEq(Represents, Provider, ProviderId, MessageAttrs(m1), MessageAttrs(m2));
  }
}

=== FILE: wrappers.dfy ===
/** Nullable values and failing computations.

    Ruby's `nil` becomes `None`; an exception raised while transforming a
    record becomes `Failure`.
 */
module Wrappers {

  datatype Option<+T> = None | Some(value: T) {

    /** The wrapped value, or `default` when absent (Ruby's `x || default`). */
    function GetOr(default: T): (v: T) {
      match this
      case Some(v) => v
      case None => default
    }
  }

  datatype Result<+T, +E> = Success(value: T) | Failure(error: E)

  /** Ruby string interpolation of a possibly-nil value: `"#{nil}"` is "". */
  function OrEmpty(s: Option<string>): (r: string) {
    s.GetOr("")
  }
}
